=== FILE: README.md ===
# TPM maintenance tracker — verified model

A Dafny model of the logic under the mobile TPM (total productive
maintenance) tracker in `TPM_test_mobile.py`. The tracker keeps five
keyed tables — Assets, PMs (preventive maintenance tasks), WorkOrders,
OperatorChecks and Breakdowns — fills them through one "Add" form each, and lists
them with a Status column computed by `color_status` from each row's
`due_date` and today's date.

Modules, one per concern:

- `Wrappers` (`wrappers.dfy`): `Option` for SQL NULL and rejected parses, `Result` for exceptions.
- `Digits` (`digits.dfy`): `str.isdigit`, `int(...)` and `str(...)` on ASCII digit text, and the zero-padded fields `strftime` writes.
- `Calendar` (`calendar.dfy`): `datetime.date` as a valid (year, month, day) triple, date comparison (lexicographic), `toordinal`, and the `YYYY-MM-DD` text format with its parser.
- `DueStatus` (`status.dfy`): `color_status` and the Status column `df['due_date'].apply(color_status)`. PMs, Work Orders, Operator Checks, Breakdowns and the Dashboard (lines 58, 82, 105, 128, 153) all use the same `AnnotateTable`.
- `Tables` (`tables.dfy`): one "Add" form against one table: the `isdigit` check, then `INSERT OR IGNORE` keyed by `int(id)`.
- `Tpm` (`tpm.dfy`): the store of five tables, the five forms, the Dashboard, and the store invariant they keep.

A table is a `map<int, Row>` from the integer primary key to the rest of the
row. A `due_date` cell is `Option<string>` (None is NULL), because
`color_status` reads the stored text. Today's date is a parameter everywhere.

## Model

| member | source | states |
|---|---|---|
| `Digits.ParseId` | TPM_test_mobile.py:46-50 | an id is accepted exactly when it is a non-empty text of digits; the key it yields, padded back to the text's length, is the text itself |
| `Digits.ParseIdExamples` | TPM_test_mobile.py:46-50 | the empty text, `-5` and `12a` are refused; `7` and `007` both give key 7 |
| `Digits.LeadingZerosSameKey` | TPM_test_mobile.py:49-50 | prefixing zeros to an accepted id keeps it accepted and keeps its key |
| `Digits.SameKeyIffPadded` | TPM_test_mobile.py:49-50 | two accepted id texts name the same row exactly when the longer is the shorter with leading zeros |
| `Digits.DecimalRoundTrip` | TPM_test_mobile.py:61-74 | `int(str(n)) == n` for every non-negative key: the Asset ID choices read back as the stored keys |
| `Digits.ValuePad` | TPM_test_mobile.py:50 | a number that fits a zero-padded field reads back from it unchanged |
| `Digits.PadValue` | TPM_test_mobile.py:21 | a digit field is the zero-padded rendering of its own value, and that value fits the field |
| `Digits.Width` | TPM_test_mobile.py:61 | `str(n)` has enough digits for `n` and no leading zero |
| `Digits.Decimal` | TPM_test_mobile.py:61 | `str(n)` is digit text of exactly `Width(n)` digits, starting with `0` only for zero (so zero is `"0"`) |
| `Calendar.Before` | TPM_test_mobile.py:22-24 | date `<` never holds between equal dates, never goes back a year, and within a year never goes back a month |
| `Calendar.Format` | TPM_test_mobile.py:50 | `strftime("%Y-%m-%d")` is ten characters with `-` at positions 4 and 7 |
| `Calendar.Parse` | TPM_test_mobile.py:21 | a text the parser accepts (the zero-padded form) names a valid date, and formatting that date gives back the text |
| `Calendar.ParseFormat` | TPM_test_mobile.py:21 | every stored `strftime("%Y-%m-%d")` text parses back to the date it was written from |
| `Calendar.FormatInjective` | TPM_test_mobile.py:50 | two valid dates are stored as the same text exactly when they are the same date |
| `Calendar.BeforeIsOrdinalLess` | TPM_test_mobile.py:22-24 | lexicographic date comparison agrees with comparing day counts (`toordinal`), both for `<` and for `==` |
| `Calendar.Trichotomy` | TPM_test_mobile.py:22-27 | for any two dates exactly one of before, equal and after holds |
| `Calendar.YearsOrdered` | TPM_test_mobile.py:22 | every day of an earlier year has a smaller day count than the start of a later year |
| `DueStatus.LabelInjective` | TPM_test_mobile.py:19-27 | the four status texts are pairwise distinct, so the column shows which status a row has |
| `DueStatus.Classify` | TPM_test_mobile.py:22-27 | a present due date is Overdue exactly when before today, Due Today exactly when equal, Upcoming exactly when after; never empty |
| `DueStatus.ColorStatus` | TPM_test_mobile.py:17-27 | a NULL or empty cell gives the empty status; a text `strptime` rejects raises; a parsed date is Overdue, Due Today or Upcoming exactly as it is before, equal to or after today |
| `DueStatus.ClassifyByOrdinal` | TPM_test_mobile.py:22-27 | the status agrees with comparing the due date's and today's day counts |
| `DueStatus.StoredDateStatus` | TPM_test_mobile.py:17-27 | a date written by a form classifies exactly as the date itself |
| `DueStatus.AnnotateTable` | TPM_test_mobile.py:58 | the listing raises exactly when some row's date is malformed; otherwise it pairs every stored row, unchanged, with the status of its own due date |
| `DueStatus.AnnotateKeepsRows` | TPM_test_mobile.py:58 | dropping the Status column from a listing gives back exactly the table listed |
| `Tables.AddRow` | TPM_test_mobile.py:45-50 | non-digit ids are refused and an id above the SQLite integer range raises, both writing nothing; a taken key leaves the table unchanged; a fresh key adds exactly one row; existing rows never change; keys stay in range |
| `Tables.InsertOrIgnoreDeterministic` | TPM_test_mobile.py:49 | the table after a submission and its outcome are determined by the table before, the id text and the row |
| `Tables.FirstWriteWins` | TPM_test_mobile.py:49 | submitting an inserted id again is ignored and keeps the first row, whatever the second row carried |
| `Tables.PaddedIdIsDuplicate` | TPM_test_mobile.py:46-50 | once an id is stored, the same id with leading zeros is a duplicate |
| `Tpm.TodayText` | TPM_test_mobile.py:50 | the due date every form writes parses back to today |
| `Tpm.AddAsset` | TPM_test_mobile.py:45-51 | Add Asset is an insert-or-ignore of a row due today into Assets; no other table changes; the store invariant is kept |
| `Tpm.ListThenAdd` | TPM_test_mobile.py:57-76 | a page that lists its table first writes nothing and reports the malformed keys when the listing raises; otherwise its form is an insert-or-ignore of the row |
| `Tpm.AddPm` | TPM_test_mobile.py:55-75 | when the PMs listing raises nothing is written; otherwise Add PM is an insert-or-ignore into PMs of a row carrying the chosen frequency label and due today; a store whose listed dates parse always reaches the form; no other table changes; the store invariant is kept |
| `Tpm.TimestampBlocksPmForm` | TPM_test_mobile.py:21-58 | a PMs row whose due date carries a time of day (`2024-01-05 14:30`) makes the page raise, so submitting the PM form writes nothing |
| `Tpm.AddWorkOrder` | TPM_test_mobile.py:79-98 | when the WorkOrders listing raises nothing is written; otherwise Add Work Order is an insert-or-ignore of a row due today into WorkOrders; no other table changes; the store invariant is kept |
| `Tpm.AddOperatorCheck` | TPM_test_mobile.py:102-121 | when the OperatorChecks listing raises nothing is written; otherwise Add Operator Check is an insert-or-ignore of a row due today into OperatorChecks; no other table changes; the store invariant is kept |
| `Tpm.AddBreakdown` | TPM_test_mobile.py:125-144 | when the Breakdowns listing raises nothing is written; otherwise Add Breakdown is an insert-or-ignore of a row due today into Breakdowns; no other table changes; the store invariant is kept |
| `Tpm.Dashboard` | TPM_test_mobile.py:150-154 | the page succeeds exactly when all four listings succeed, and then shows each table's own listing (every row unchanged, with the status of its own due date); it succeeds whenever the four tables' due dates parse, whatever the Assets hold; a failure names the first table in page order whose listing raises, with that table's malformed keys, and every earlier table listed cleanly |
| `Tpm.ListedDatesListCleanly` | TPM_test_mobile.py:150-154 | when every due date in PMs, WorkOrders, OperatorChecks and Breakdowns parses, none of their listings raises |
| `Tpm.NewPmStatus` | TPM_test_mobile.py:73-74 | a PM added today is Due Today today, Overdue on every later day, and Upcoming only on an earlier day |
| `Tpm.FrequencyIgnored` | TPM_test_mobile.py:67-74 | two PM submissions differing only in frequency have the same outcome, the same keys and the same due dates, and their rows differ at most in the stored frequency label |
| `Tpm.AssetChoiceRoundTrip` | TPM_test_mobile.py:61-74 | in a well-formed store each Asset ID choice `str(k)` is accepted digit text, and `int` of it is the key `k` |

Two facts about the code worth stating on their own:

- The PM form stores the chosen frequency but writes today's date as `due_date` whatever it is (`Tpm.FrequencyIgnored`). The frequency is never used to compute a due date.
- Any digit text is accepted as an id, `0` and `000` included.

## Left out

- Streamlit rendering, page navigation, form widgets and the success/error messages. "added!" is shown even when a duplicate is ignored, so the message says nothing about the table.
- The SQLite connection, cursor, SQL text and `pd.read_sql_query`: tables are in-memory maps. The schema is not in the source, so `INSERT OR IGNORE` is modelled as ignoring only a primary-key clash.
- Row order of a listing: a table is a map, so the listing carries no order.
- `datetime.today()`: today is a parameter, one per listing. `color_status` reads the clock again for every row, so a listing that spans midnight classifies its rows against two dates; the model does not.
- Calendar.Parse: accepts only the zero-padded ASCII `YYYY-MM-DD` form that the forms write. `strptime` also accepts one-digit months and days, a space-padded day (`2024-01- 5`), and non-ASCII digits in the year and in a day's second digit; the model treats those texts as malformed.
- Calendar.Format: pads years below 1000 to four digits, which glibc's `strftime` does not do.
- DueStatus.ColorStatus: a NULL cell is modelled as None. A pandas NaN is not modelled; `color_status` would pass it to `strptime` and raise.
- Tpm.Dashboard: a raising table ends the page. The tables Python already rendered before raising are not returned.
- Digits.ParseId: restricted to ASCII digits. Python's `isdigit` also accepts other Unicode digits, some of which `int` then rejects. Python's `int` also raises on digit text longer than 4300 characters (its default conversion limit), so `"0" * 4300 + "7"` raises instead of being stored under key 7; the model has no length limit.
- DueStatus.AnnotateTable: its Failure carries every key with a malformed date. That payload is the model's own report: pandas stops at the first malformed row in row order, and the ValueError names at most that row's text (for a day out of range, no text at all).
- The Asset ID selection on the PM, Work Order, Operator Check and Breakdown forms is taken as an `int` parameter. The `None` selection when no asset exists, which crashes `int(...)`, is not modelled.

=== FILE: calendar.dfy ===
/**
 * Calendar dates as `datetime.date` holds them: proleptic Gregorian
 * (year, month, day) triples, their order, and the `YYYY-MM-DD` text the
 * tables store (`strftime("%Y-%m-%d")` / `strptime(..., "%Y-%m-%d")`).
 */
module Calendar {
  import opened Wrappers
  import opened Digits

  datatype Date = Date(year: int, month: int, day: int)

  /** The year range of `datetime.date`. */
  const MinYear: int := 1
  const MaxYear: int := 9999

  predicate IsLeapYear(y: int) {
    y % 4 == 0 && (y % 100 != 0 || y % 400 == 0)
  }

  function DaysInYear(y: int): nat {
    if IsLeapYear(y) then 366 else 365
  }

  function DaysInMonth(y: int, m: int): (n: nat)
    requires 1 <= m <= 12
    ensures 28 <= n <= 31
  {
    if m == 2 then (if IsLeapYear(y) then 29 else 28)
    else if m == 4 || m == 6 || m == 9 || m == 11 then 30
    else 31
  }

  predicate ValidDate(d: Date) {
    && MinYear <= d.year <= MaxYear
    && 1 <= d.month <= 12
    && 1 <= d.day <= DaysInMonth(d.year, d.month)
  }

  /** Date comparison `a < b`: lexicographic on (year, month, day). */
  function Before(a: Date, b: Date): (r: bool)
    ensures r ==> a != b
    ensures r ==> a.year <= b.year
    ensures r && a.year == b.year ==> a.month <= b.month
  {
    || a.year < b.year
    || (a.year == b.year && a.month < b.month)
    || (a.year == b.year && a.month == b.month && a.day < b.day)
  }

  /** Days in the years before `y`, counted from year 1. */
  function DaysBeforeYear(y: int): nat
    requires y >= 1
  {
    if y == 1 then 0 else DaysBeforeYear(y - 1) + DaysInYear(y - 1)
  }

  /** Days in the months of year `y` before month `m`; `m == 13` gives the whole year. */
  function DaysBeforeMonth(y: int, m: int): nat
    requires 1 <= m <= 13
  {
    var common := [0, 31, 59, 90, 120, 151, 181, 212, 243, 273, 304, 334, 365];
    common[m - 1] + (if m > 2 && IsLeapYear(y) then 1 else 0)
  }

  /** `date.toordinal()`: the day count of a date, with 0001-01-01 as day 1. */
  function Ordinal(d: Date): (n: int)
    requires ValidDate(d)
    ensures n >= 1
  {
    DaysBeforeYear(d.year) + DaysBeforeMonth(d.year, d.month) + d.day
  }

  /** A later year starts after every day of an earlier one. */
  lemma {:induction false} YearsOrdered(y1: int, y2: int)
    requires 1 <= y1 < y2
    ensures DaysBeforeYear(y1) + DaysInYear(y1) <= DaysBeforeYear(y2)
  {
    if y1 < y2 - 1 {
      YearsOrdered(y1, y2 - 1);
    }
  }

  /** A later month of the same year starts after every day of an earlier one. */
  lemma MonthsOrdered(y: int, m1: int, m2: int)
    requires 1 <= m1 < m2 <= 12
    ensures DaysBeforeMonth(y, m1) + DaysInMonth(y, m1) <= DaysBeforeMonth(y, m2)
  {
  }

  /** A date's day count falls inside its own year. */
  lemma OrdinalInYear(d: Date)
    requires ValidDate(d)
    ensures DaysBeforeYear(d.year) < Ordinal(d) <= DaysBeforeYear(d.year) + DaysInYear(d.year)
  {
  }

  /** Lexicographic comparison agrees with comparing day counts. */
  lemma {:induction false} BeforeIsOrdinalLess(a: Date, b: Date)
    requires ValidDate(a) && ValidDate(b)
    ensures Before(a, b) <==> Ordinal(a) < Ordinal(b)
    ensures a == b <==> Ordinal(a) == Ordinal(b)
  {
    if Before(a, b) {
      OrdinalLess(a, b);
    } else if Before(b, a) {
      OrdinalLess(b, a);
    }
  }

  lemma {:induction false} OrdinalLess(a: Date, b: Date)
    requires ValidDate(a) && ValidDate(b) && Before(a, b)
    ensures Ordinal(a) < Ordinal(b)
  {
    if a.year < b.year {
      OrdinalInYear(a);
      OrdinalInYear(b);
      YearsOrdered(a.year, b.year);
    } else if a.month < b.month {
      MonthsOrdered(a.year, a.month, b.month);
    }
  }

  /** Exactly one of before, equal and after holds for any two dates. */
  lemma Trichotomy(a: Date, b: Date)
    ensures Before(a, b) || a == b || Before(b, a)
    ensures !(Before(a, b) && Before(b, a))
    ensures !Before(a, a)
  {
  }

  /** `date.strftime("%Y-%m-%d")`. */
  function Format(d: Date): (s: string)
    requires ValidDate(d)
    ensures |s| == 10 && s[4] == '-' && s[7] == '-'
  {
    PadDecimal(d.year, 4) + "-" + PadDecimal(d.month, 2) + "-" + PadDecimal(d.day, 2)
  }

  /**
   * `datetime.strptime(s, "%Y-%m-%d").date()` on the zero-padded form; None
   * where `strptime` raises (wrong shape, non-digits, a day the month lacks).
   */
  function Parse(s: string): (r: Option<Date>)
    ensures r.Some? ==> ValidDate(r.value) && Format(r.value) == s
  {
    if |s| == 10 && s[4] == '-' && s[7] == '-'
       && AllDigits(s[..4]) && AllDigits(s[5..7]) && AllDigits(s[8..])
    then
      var d := Date(Value(s[..4]), Value(s[5..7]), Value(s[8..]));
      if ValidDate(d) then
        FieldsFormat(s);
        Some(d)
      else
        None
    else
      None
  }

  /** A text of the `YYYY-MM-DD` shape whose fields name a valid date is that date's `Format`. */
  lemma FieldsFormat(s: string)
    requires |s| == 10 && s[4] == '-' && s[7] == '-'
    requires AllDigits(s[..4]) && AllDigits(s[5..7]) && AllDigits(s[8..])
    requires ValidDate(Date(Value(s[..4]), Value(s[5..7]), Value(s[8..])))
    ensures Format(Date(Value(s[..4]), Value(s[5..7]), Value(s[8..]))) == s
  {
    PadValue(s[..4]);
    PadValue(s[5..7]);
    PadValue(s[8..]);
    assert s == s[..4] + "-" + s[5..7] + "-" + s[8..];
  }

  /** Text written by `Format` reads back as the same date. */
  lemma ParseFormat(d: Date)
    requires ValidDate(d)
    ensures Parse(Format(d)) == Some(d)
  {
    var s := Format(d);
    assert s[..4] == PadDecimal(d.year, 4);
    assert s[5..7] == PadDecimal(d.month, 2);
    assert s[8..] == PadDecimal(d.day, 2);
    ValuePad(d.year, 4);
    ValuePad(d.month, 2);
    ValuePad(d.day, 2);
  }

  /** Distinct dates are stored as distinct texts. */
  lemma FormatInjective(a: Date, b: Date)
    requires ValidDate(a) && ValidDate(b)
    ensures Format(a) == Format(b) <==> a == b
  {
    ParseFormat(a);
    ParseFormat(b);
  }
}

=== FILE: digits.dfy ===
/**
 * Decimal digit text: Python's `str.isdigit`, `int(...)` and `str(...)` on
 * non-negative integers, and the zero-padded fields `strftime` writes.
 * Only ASCII digits are modelled.
 */
module Digits {
  import opened Wrappers

  predicate IsDigit(c: char) {
    '0' <= c <= '9'
  }

  /** Every character is an ASCII digit (the empty text included). */
  predicate AllDigits(s: string) {
    forall i :: 0 <= i < |s| ==> IsDigit(s[i])
  }

  /** `s.isdigit()`: true only for a non-empty text of digits. */
  predicate IsDigitText(s: string) {
    |s| > 0 && AllDigits(s)
  }

  function DigitValue(c: char): (v: nat)
    requires IsDigit(c)
    ensures v < 10
  {
    c as int - '0' as int
  }

  function DigitChar(v: nat): (c: char)
    requires v < 10
    ensures IsDigit(c) && DigitValue(c) == v
  {
    ('0' as int + v) as char
  }

  /** The number a digit text denotes; leading zeros are allowed, as in `int("007")`. */
  function Value(s: string): nat
    requires AllDigits(s)
  {
    if |s| == 0 then 0 else Value(s[..|s| - 1]) * 10 + DigitValue(s[|s| - 1])
  }

  function Pow10(w: nat): (p: nat)
    ensures p >= 1
  {
    if w == 0 then 1 else 10 * Pow10(w - 1)
  }

  /** The `w` lowest decimal digits of `n`, zero padded on the left (`%02d`, `%04d`). */
  function PadDecimal(n: nat, w: nat): (s: string)
    ensures |s| == w && AllDigits(s)
  {
    if w == 0 then [] else PadDecimal(n / 10, w - 1) + [DigitChar(n % 10)]
  }

  /** The number of digits `str(n)` prints: enough for `n`, and no leading zero. */
  function Width(n: nat): (w: nat)
    ensures w >= 1
    ensures n < Pow10(w)
    ensures w == 1 || Pow10(w - 1) <= n
  {
    if n < 10 then 1 else 1 + Width(n / 10)
  }

  /** `str(n)` for a non-negative integer. */
  function Decimal(n: nat): (s: string)
    ensures IsDigitText(s)
    ensures |s| == Width(n)
    ensures s[0] == '0' ==> n == 0
  {
    var s := PadDecimal(n, Width(n));
    LeadingDigit(n, Width(n));
    s
  }

  /** `int(s)` guarded by `s.isdigit()`: the key an "Add" form stores, or None when the form refuses the text. */
  function ParseId(s: string): (r: Option<nat>)
    ensures r.Some? <==> IsDigitText(s)
    ensures r.Some? ==> r.value < Pow10(|s|) && PadDecimal(r.value, |s|) == s
  {
    if IsDigitText(s) then
      PadValue(s);
      Some(Value(s))
    else
      None
  }

  /** Reading back a padded field gives the number, when it fits the width. */
  lemma {:induction false} ValuePad(n: nat, w: nat)
    requires n < Pow10(w)
    ensures Value(PadDecimal(n, w)) == n
  {
    if w > 0 {
      var s := PadDecimal(n, w);
      PadSplit(n, w);
      assert n / 10 < Pow10(w - 1);
      ValuePad(n / 10, w - 1);
      assert Value(s) == Value(s[..w - 1]) * 10 + DigitValue(s[w - 1]);
    }
  }

  /** A padded field is the field one narrower for `n / 10`, followed by the last digit of `n`. */
  lemma PadSplit(n: nat, w: nat)
    requires w > 0
    ensures PadDecimal(n, w)[..w - 1] == PadDecimal(n / 10, w - 1)
    ensures PadDecimal(n, w)[w - 1] == DigitChar(n % 10)
  {
    var s := PadDecimal(n, w);
    assert s == PadDecimal(n / 10, w - 1) + [DigitChar(n % 10)];
  }

  /** Padding the value of a digit text to its own length gives the text back. */
  lemma {:induction false} PadValue(s: string)
    requires AllDigits(s)
    ensures Value(s) < Pow10(|s|)
    ensures PadDecimal(Value(s), |s|) == s
  {
    if |s| > 0 {
      var p := s[..|s| - 1];
      PadValue(p);
      var v := Value(s);
      assert v / 10 == Value(p) && v % 10 == DigitValue(s[|s| - 1]);
      assert s == p + [s[|s| - 1]];
    }
  }

  /** The first digit of a padded field is zero only when the number is below the field's last power of ten. */
  lemma {:induction false} LeadingDigit(n: nat, w: nat)
    requires w >= 1 && n < Pow10(w)
    ensures PadDecimal(n, w)[0] == '0' <==> n < Pow10(w - 1)
  {
    if w > 1 {
      assert PadDecimal(n, w)[0] == PadDecimal(n / 10, w - 1)[0];
      LeadingDigit(n / 10, w - 1);
    }
  }

  /** `int(str(n)) == n`: an id shown in a selection box reads back as the same key. */
  lemma DecimalRoundTrip(n: nat)
    ensures ParseId(Decimal(n)) == Some(n)
  {
    ValuePad(n, Width(n));
  }

  /** The form's acceptance on sample inputs: the empty text, a sign and a letter are refused; zeros on the left do not matter. */
  lemma ParseIdExamples()
    ensures ParseId("") == None && ParseId("-5") == None && ParseId("12a") == None
    ensures ParseId("7") == Some(7) && ParseId("007") == Some(7)
  {
    assert "007" == Zeros(2) + "7";
    LeadingZerosSameKey(2, "7");
    assert !IsDigit("12a"[2]);
  }

  /** Text of `k` zeros. */
  function Zeros(k: nat): (s: string)
    ensures |s| == k && AllDigits(s)
    ensures forall i :: 0 <= i < k ==> s[i] == '0'
  {
    if k == 0 then [] else "0" + Zeros(k - 1)
  }

  /** One leading zero does not change the value. */
  lemma {:induction false} LeadingZero(s: string)
    requires AllDigits(s)
    ensures Value("0" + s) == Value(s)
  {
    if |s| > 0 {
      var t := "0" + s;
      assert t[..|t| - 1] == "0" + s[..|s| - 1];
      LeadingZero(s[..|s| - 1]);
    }
  }

  /** Leading zeros never change the key: `"007"` and `"7"` are the same id. */
  lemma {:induction false} LeadingZerosSameKey(k: nat, s: string)
    requires IsDigitText(s)
    ensures IsDigitText(Zeros(k) + s)
    ensures ParseId(Zeros(k) + s) == ParseId(s)
  {
    var t := Zeros(k) + s;
    assert AllDigits(t) by {
      forall i | 0 <= i < |t| ensures IsDigit(t[i]) {
        if i < k { assert t[i] == Zeros(k)[i]; } else { assert t[i] == s[i - k]; }
      }
    }
    if k > 0 {
      LeadingZerosSameKey(k - 1, s);
      assert t == "0" + (Zeros(k - 1) + s);
      LeadingZero(Zeros(k - 1) + s);
      assert Value(t) == Value(Zeros(k - 1) + s) == Value(s);
    } else {
      assert t == s;
    }
    assert ParseId(t) == Some(Value(t));
    assert ParseId(s) == Some(Value(s));
  }

  /** Two digit texts give the same key exactly when the longer is the shorter with leading zeros added. */
  lemma {:induction false} SameKeyIffPadded(s: string, t: string)
    requires IsDigitText(s) && IsDigitText(t) && |s| <= |t|
    ensures ParseId(s) == ParseId(t) <==> t == Zeros(|t| - |s|) + s
  {
    if t == Zeros(|t| - |s|) + s {
      LeadingZerosSameKey(|t| - |s|, s);
    }
    if ParseId(s) == ParseId(t) {
      PadValue(s);
      PadValue(t);
      PadZeros(Value(s), |s|, |t|);
    }
  }

  /** Widening a field adds zeros on the left. */
  lemma {:induction false} PadZeros(n: nat, w: nat, w': nat)
    requires n < Pow10(w) && w <= w'
    ensures PadDecimal(n, w') == Zeros(w' - w) + PadDecimal(n, w)
  {
    if w == 0 {
      PadZero(w');
    } else {
      PadZeros(n / 10, w - 1, w' - 1);
      assert PadDecimal(n, w') == PadDecimal(n / 10, w' - 1) + [DigitChar(n % 10)];
    }
  }

  /** Zero in a field of any width is all zeros. */
  lemma {:induction false} PadZero(w: nat)
    ensures PadDecimal(0, w) == Zeros(w)
  {
    if w > 0 {
      PadZero(w - 1);
      assert Zeros(w - 1) + "0" == Zeros(w);
    }
  }
}

=== FILE: status.dfy ===
/**
 * The due-date status classifier (`color_status`) and the Status column each
 * listing adds to a table's rows.
 */
module DueStatus {
  import opened Wrappers
  import opened Calendar

  /** The four values `color_status` returns; `NoStatus` is its empty string. */
  datatype Status = NoStatus | Overdue | DueToday | Upcoming

  /** The text shown in the Status column. */
  function Label(st: Status): string {
    match st
    case NoStatus => ""
    case Overdue => "\U{1F534} Overdue"
    case DueToday => "\U{1F7E0} Due Today"
    case Upcoming => "\U{1F7E2} Upcoming"
  }

  /** Distinct statuses show distinct labels, so the Status column says which of the four a row has. */
  lemma LabelInjective(a: Status, b: Status)
    ensures Label(a) == Label(b) <==> a == b
  {
  }

  /** Three-way comparison of a present due date with today's date. */
  function Classify(due: Date, today: Date): (r: Status)
    ensures r != NoStatus
    ensures r == Overdue <==> Before(due, today)
    ensures r == DueToday <==> due == today
    ensures r == Upcoming <==> Before(today, due)
  {
    if Before(due, today) then Overdue
    else if due == today then DueToday
    else Upcoming
  }

  /**
   * `color_status` on one `due_date` cell (None is SQL NULL). A missing or
   * empty text has no status; text `strptime` rejects is a Failure carrying it.
   */
  function ColorStatus(cell: Option<string>, today: Date): (r: Result<Status, string>)
    ensures r == Success(NoStatus) <==> cell.None? || cell.value == ""
    ensures r.Failure? <==> cell.Some? && cell.value != "" && Parse(cell.value).None?
    ensures r.Failure? ==> r.error == cell.value
    ensures cell.Some? && Parse(cell.value).Some? ==>
              var due := Parse(cell.value).value;
              && r.Success?
              && (r.value == Overdue <==> Before(due, today))
              && (r.value == DueToday <==> due == today)
              && (r.value == Upcoming <==> Before(today, due))
  {
    if cell.None? || cell.value == "" then
      Success(NoStatus)
    else
      match Parse(cell.value)
      case None => Failure(cell.value)
      case Some(due) => Success(Classify(due, today))
  }

  /** A present due date classifies the same way as its day count compares with today's. */
  lemma ClassifyByOrdinal(due: Date, today: Date)
    requires ValidDate(due) && ValidDate(today)
    ensures Classify(due, today) == Overdue <==> Ordinal(due) < Ordinal(today)
    ensures Classify(due, today) == DueToday <==> Ordinal(due) == Ordinal(today)
    ensures Classify(due, today) == Upcoming <==> Ordinal(due) > Ordinal(today)
  {
    BeforeIsOrdinalLess(due, today);
    BeforeIsOrdinalLess(today, due);
  }

  /** A date stored by the add forms classifies as the date itself does. */
  lemma StoredDateStatus(due: Date, today: Date)
    requires ValidDate(due)
    ensures ColorStatus(Some(Format(due)), today) == Success(Classify(due, today))
  {
    ParseFormat(due);
  }

  /** The keys of a table whose due date `strptime` would reject. */
  function MalformedKeys<R>(t: map<int, R>, dueOf: R -> Option<string>, today: Date): set<int> {
    set k | k in t && ColorStatus(dueOf(t[k]), today).Failure?
  }

  /**
   * `df['Status'] = df['due_date'].apply(color_status)`: every row paired with
   * the status of its own due date. The `apply` raises if any row's date is
   * malformed; the Failure collects the key of every such row.
   */
  function AnnotateTable<R>(t: map<int, R>, dueOf: R -> Option<string>, today: Date): (r: Result<map<int, (R, Status)>, set<int>>)
    ensures r.Success? <==> forall k :: k in t ==> ColorStatus(dueOf(t[k]), today).Success?
    ensures r.Failure? ==> r.error != {} && r.error == MalformedKeys(t, dueOf, today)
    ensures r.Success? ==> r.value.Keys == t.Keys
    ensures r.Success? ==> forall k :: k in t ==> r.value[k].0 == t[k]
    ensures r.Success? ==> forall k :: k in t ==> Success(r.value[k].1) == ColorStatus(dueOf(t[k]), today)
  {
    var bad := MalformedKeys(t, dueOf, today);
    if exists k :: k in t && ColorStatus(dueOf(t[k]), today).Failure? then
      assert bad != {} by {
        var k :| k in t && ColorStatus(dueOf(t[k]), today).Failure?;
        assert k in bad;
      }
      Failure(bad)
    else
      Success(map k | k in t :: (t[k], ColorStatus(dueOf(t[k]), today).value))
  }

  /** The stored rows: an annotated listing with its Status column dropped. */
  function Rows<R>(annotated: map<int, (R, Status)>): (t: map<int, R>)
    ensures t.Keys == annotated.Keys
  {
    map k | k in annotated :: annotated[k].0
  }

  /** Listing is read-only: dropping the Status column gives back exactly the table that was listed. */
  lemma AnnotateKeepsRows<R>(t: map<int, R>, dueOf: R -> Option<string>, today: Date)
    requires AnnotateTable(t, dueOf, today).Success?
    ensures Rows(AnnotateTable(t, dueOf, today).value) == t
  {
  }
}

=== FILE: tables.dfy ===
/**
 * One "Add" form against one keyed table: the `isdigit` check on the typed
 * id, then `INSERT OR IGNORE` keyed by `int(id)`. A table is a map from the
 * integer primary key to the rest of the row.
 */
module Tables {
  import opened Wrappers
  import opened Digits

  /** The largest SQLite INTEGER; `sqlite3` raises OverflowError binding a larger Python int. */
  const MaxSqliteInteger: int := 0x7FFF_FFFF_FFFF_FFFF

  /** What one submission of an "Add" form did. */
  datatype AddOutcome =
    | InvalidId                    // "... ID must be a number!"; nothing written
    | IdTooLarge                   // OverflowError from sqlite3; nothing written
    | Inserted(key: int)           // a new row under `key`
    | DuplicateIgnored(key: int)   // `key` was taken; INSERT OR IGNORE kept the old row

  /** Every key of the table is one an "Add" form can produce. */
  predicate KeysInRange<R>(t: map<int, R>) {
    forall k :: k in t ==> 0 <= k <= MaxSqliteInteger
  }

  /**
   * The meaning of one submission: which outcome the typed id leads to, and
   * that only an insertion of a fresh key changes the table, by exactly one row.
   */
  ghost predicate InsertOrIgnore<R>(before: map<int, R>, idText: string, row: R, after: map<int, R>, outcome: AddOutcome) {
    && (outcome == InvalidId <==> !IsDigitText(idText))
    && (outcome == IdTooLarge <==> IsDigitText(idText) && Value(idText) > MaxSqliteInteger)
    && (outcome.Inserted? || outcome.DuplicateIgnored? ==> ParseId(idText) == Some(outcome.key))
    && (outcome.Inserted? ==> outcome.key !in before && after == before[outcome.key := row])
    && (outcome.DuplicateIgnored? ==> outcome.key in before)
    && (!outcome.Inserted? ==> after == before)
  }

  /** Validate the id text, then `INSERT OR IGNORE` the row under `int(idText)`. */
  function AddRow<R>(t: map<int, R>, idText: string, row: R): (r: (map<int, R>, AddOutcome))
    ensures InsertOrIgnore(t, idText, row, r.0, r.1)
    ensures r.1.Inserted? ==> |r.0| == |t| + 1
    ensures !r.1.Inserted? ==> |r.0| == |t|
    ensures forall k :: k in t ==> k in r.0 && r.0[k] == t[k]
    ensures KeysInRange(t) ==> KeysInRange(r.0)
  {
    match ParseId(idText)
    case None => (t, InvalidId)
    case Some(key) =>
      if key > MaxSqliteInteger then (t, IdTooLarge)
      else if key in t then (t, DuplicateIgnored(key))
      else (t[key := row], Inserted(key))
  }

  /** The outcome of a submission is determined by the id text and the keys already present. */
  lemma InsertOrIgnoreDeterministic<R>(t: map<int, R>, idText: string, row: R,
                                       a1: map<int, R>, o1: AddOutcome,
                                       a2: map<int, R>, o2: AddOutcome)
    requires InsertOrIgnore(t, idText, row, a1, o1)
    requires InsertOrIgnore(t, idText, row, a2, o2)
    ensures a1 == a2 && o1 == o2
  {
  }

  /** Submitting the same id twice: the second is ignored and the first row stays, whatever the second carried. */
  lemma FirstWriteWins<R>(t: map<int, R>, idText: string, row1: R, row2: R)
    requires AddRow(t, idText, row1).1.Inserted?
    ensures AddRow(AddRow(t, idText, row1).0, idText, row2).1.DuplicateIgnored?
    ensures AddRow(AddRow(t, idText, row1).0, idText, row2).0 == AddRow(t, idText, row1).0
  {
  }

  /** Leading zeros name the same row: `"007"` is a duplicate once `"7"` is stored. */
  lemma {:induction false} PaddedIdIsDuplicate<R>(t: map<int, R>, idText: string, zeros: nat, row1: R, row2: R)
    requires AddRow(t, idText, row1).1.Inserted?
    ensures AddRow(AddRow(t, idText, row1).0, Zeros(zeros) + idText, row2).1.DuplicateIgnored?
  {
    LeadingZerosSameKey(zeros, idText);
  }
}

=== FILE: tpm.dfy ===
/**
 * The maintenance store and its pages: five keyed tables, the five "Add"
 * forms that write them, and the Dashboard that lists four of them with a
 * Status column. `today` is an explicit parameter.
 */
module Tpm {
  import opened Wrappers
  import opened Digits
  import opened Calendar
  import opened DueStatus
  import opened Tables

  /** The PM form's frequency choices; the chosen label is stored with the row and used for nothing else. */
  datatype Frequency = OneHour | TwentyFourHours | SevenDays | SixMonths | TwelveMonths

  /** The option text the form offers and the PMs row stores. */
  function FrequencyLabel(f: Frequency): string {
    match f
    case OneHour => "1hr"
    case TwentyFourHours => "24hrs"
    case SevenDays => "7days"
    case SixMonths => "6months"
    case TwelveMonths => "12months"
  }

  /** A row of Assets; `dueDate` is None for a NULL cell. */
  datatype Asset = Asset(name: string, kind: string, location: string, dueDate: Option<string>)

  /** A row of PMs. */
  datatype Pm = Pm(assetId: int, description: string, frequency: string, dueDate: Option<string>)

  /** A row of WorkOrders, OperatorChecks or Breakdowns: the three share one shape. */
  datatype Task = Task(assetId: int, description: string, dueDate: Option<string>)

  datatype Store = Store(
    assets: map<int, Asset>,
    pms: map<int, Pm>,
    workOrders: map<int, Task>,
    operatorChecks: map<int, Task>,
    breakdowns: map<int, Task>)

  function AssetDue(a: Asset): Option<string> { a.dueDate }
  function PmDue(p: Pm): Option<string> { p.dueDate }
  function TaskDue(t: Task): Option<string> { t.dueDate }

  /** A due-date cell the listings can classify: NULL, or a date written as `YYYY-MM-DD`. */
  predicate WellFormedDue(cell: Option<string>) {
    cell.None? || Parse(cell.value).Some?
  }

  /** Every due date in the four tables the Dashboard lists parses. */
  predicate ListedDatesParse(s: Store) {
    && (forall k :: k in s.pms ==> WellFormedDue(s.pms[k].dueDate))
    && (forall k :: k in s.workOrders ==> WellFormedDue(s.workOrders[k].dueDate))
    && (forall k :: k in s.operatorChecks ==> WellFormedDue(s.operatorChecks[k].dueDate))
    && (forall k :: k in s.breakdowns ==> WellFormedDue(s.breakdowns[k].dueDate))
  }

  /** Every key came from an "Add" form and every due date parses, the Assets' included. */
  predicate WellFormed(s: Store) {
    && KeysInRange(s.assets) && KeysInRange(s.pms) && KeysInRange(s.workOrders)
    && KeysInRange(s.operatorChecks) && KeysInRange(s.breakdowns)
    && (forall k :: k in s.assets ==> WellFormedDue(s.assets[k].dueDate))
    && ListedDatesParse(s)
  }

  /** The `due_date` every form writes: today's date as `YYYY-MM-DD`. */
  function TodayText(today: Date): (cell: Option<string>)
    requires ValidDate(today)
    ensures cell.Some? && Parse(cell.value) == Some(today)
  {
    ParseFormat(today);
    Some(Format(today))
  }

  /** Add Asset: only Assets changes, and a new row is due today. */
  function AddAsset(s: Store, idText: string, name: string, kind: string, location: string, today: Date): (r: (Store, AddOutcome))
    requires ValidDate(today)
    ensures InsertOrIgnore(s.assets, idText, Asset(name, kind, location, TodayText(today)), r.0.assets, r.1)
    ensures r.0 == s.(assets := r.0.assets)
    ensures WellFormed(s) ==> WellFormed(r.0)
  {
    var (assets', outcome) := AddRow(s.assets, idText, Asset(name, kind, location, TodayText(today)));
    (s.(assets := assets'), outcome)
  }

  /** What submitting a form on a page that first lists its table did. */
  datatype PageOutcome =
    | ListingRaised(keys: set<int>)   // the listing above the form raised: the form never ran
    | Submitted(result: AddOutcome)   // the form ran with this outcome

  /**
   * A page that lists its table with the Status column, then offers the "Add"
   * form. When the listing raises, Streamlit stops the page and nothing is written.
   */
  function ListThenAdd<R>(t: map<int, R>, dueOf: R -> Option<string>, idText: string, row: R, today: Date): (r: (map<int, R>, PageOutcome))
    ensures AnnotateTable(t, dueOf, today).Failure? ==> r == (t, ListingRaised(MalformedKeys(t, dueOf, today)))
    ensures AnnotateTable(t, dueOf, today).Success? ==> r.1.Submitted? && InsertOrIgnore(t, idText, row, r.0, r.1.result)
    ensures KeysInRange(t) ==> KeysInRange(r.0)
    ensures forall k :: k in r.0 ==> k in t || r.0[k] == row
  {
    match AnnotateTable(t, dueOf, today)
    case Failure(bad) => (t, ListingRaised(bad))
    case Success(_) =>
      var (t', outcome) := AddRow(t, idText, row);
      (t', Submitted(outcome))
  }

  /** Add PM: only PMs changes; the frequency is stored but the due date is today whatever it is. Nothing is written when the PMs listing raises. */
  function AddPm(s: Store, idText: string, assetId: int, description: string, frequency: Frequency, today: Date): (r: (Store, PageOutcome))
    requires ValidDate(today)
    ensures AnnotateTable(s.pms, PmDue, today).Failure? ==> r == (s, ListingRaised(MalformedKeys(s.pms, PmDue, today)))
    ensures AnnotateTable(s.pms, PmDue, today).Success? ==>
              r.1.Submitted? && InsertOrIgnore(s.pms, idText, Pm(assetId, description, FrequencyLabel(frequency), TodayText(today)), r.0.pms, r.1.result)
    ensures ListedDatesParse(s) ==> r.1.Submitted?
    ensures r.0 == s.(pms := r.0.pms)
    ensures WellFormed(s) ==> WellFormed(r.0)
  {
    ListedDatesListCleanly(s, today);
    var (pms', outcome) := ListThenAdd(s.pms, PmDue, idText, Pm(assetId, description, FrequencyLabel(frequency), TodayText(today)), today);
    (s.(pms := pms'), outcome)
  }

  /** Add Work Order: only WorkOrders changes. Nothing is written when the WorkOrders listing raises. */
  function AddWorkOrder(s: Store, idText: string, assetId: int, description: string, today: Date): (r: (Store, PageOutcome))
    requires ValidDate(today)
    ensures AnnotateTable(s.workOrders, TaskDue, today).Failure? ==> r == (s, ListingRaised(MalformedKeys(s.workOrders, TaskDue, today)))
    ensures AnnotateTable(s.workOrders, TaskDue, today).Success? ==>
              r.1.Submitted? && InsertOrIgnore(s.workOrders, idText, Task(assetId, description, TodayText(today)), r.0.workOrders, r.1.result)
    ensures ListedDatesParse(s) ==> r.1.Submitted?
    ensures r.0 == s.(workOrders := r.0.workOrders)
    ensures WellFormed(s) ==> WellFormed(r.0)
  {
    ListedDatesListCleanly(s, today);
    var (workOrders', outcome) := ListThenAdd(s.workOrders, TaskDue, idText, Task(assetId, description, TodayText(today)), today);
    (s.(workOrders := workOrders'), outcome)
  }

  /** Add Operator Check: only OperatorChecks changes. Nothing is written when the OperatorChecks listing raises. */
  function AddOperatorCheck(s: Store, idText: string, assetId: int, description: string, today: Date): (r: (Store, PageOutcome))
    requires ValidDate(today)
    ensures AnnotateTable(s.operatorChecks, TaskDue, today).Failure? ==> r == (s, ListingRaised(MalformedKeys(s.operatorChecks, TaskDue, today)))
    ensures AnnotateTable(s.operatorChecks, TaskDue, today).Success? ==>
              r.1.Submitted? && InsertOrIgnore(s.operatorChecks, idText, Task(assetId, description, TodayText(today)), r.0.operatorChecks, r.1.result)
    ensures ListedDatesParse(s) ==> r.1.Submitted?
    ensures r.0 == s.(operatorChecks := r.0.operatorChecks)
    ensures WellFormed(s) ==> WellFormed(r.0)
  {
    ListedDatesListCleanly(s, today);
    var (operatorChecks', outcome) := ListThenAdd(s.operatorChecks, TaskDue, idText, Task(assetId, description, TodayText(today)), today);
    (s.(operatorChecks := operatorChecks'), outcome)
  }

  /** Add Breakdown: only Breakdowns changes. Nothing is written when the Breakdowns listing raises. */
  function AddBreakdown(s: Store, idText: string, assetId: int, description: string, today: Date): (r: (Store, PageOutcome))
    requires ValidDate(today)
    ensures AnnotateTable(s.breakdowns, TaskDue, today).Failure? ==> r == (s, ListingRaised(MalformedKeys(s.breakdowns, TaskDue, today)))
    ensures AnnotateTable(s.breakdowns, TaskDue, today).Success? ==>
              r.1.Submitted? && InsertOrIgnore(s.breakdowns, idText, Task(assetId, description, TodayText(today)), r.0.breakdowns, r.1.result)
    ensures ListedDatesParse(s) ==> r.1.Submitted?
    ensures r.0 == s.(breakdowns := r.0.breakdowns)
    ensures WellFormed(s) ==> WellFormed(r.0)
  {
    ListedDatesListCleanly(s, today);
    var (breakdowns', outcome) := ListThenAdd(s.breakdowns, TaskDue, idText, Task(assetId, description, TodayText(today)), today);
    (s.(breakdowns := breakdowns'), outcome)
  }

  /** The four listings the Dashboard shows, each row paired with its status. */
  datatype Overview = Overview(
    pms: map<int, (Pm, Status)>,
    workOrders: map<int, (Task, Status)>,
    operatorChecks: map<int, (Task, Status)>,
    breakdowns: map<int, (Task, Status)>)

  /** The four tables the Dashboard lists, in the order it lists them. */
  datatype DashboardTable = PmsTable | WorkOrdersTable | OperatorChecksTable | BreakdownsTable

  /** The table whose listing raised first, and the keys of its rows with a malformed due date. */
  datatype ListingError = ListingError(table: DashboardTable, keys: set<int>)

  /**
   * The Dashboard: PMs, WorkOrders, OperatorChecks and Breakdowns in that
   * order, each with its Status column. The first table whose `apply` raises
   * ends the page.
   */
  function Dashboard(s: Store, today: Date): (r: Result<Overview, ListingError>)
    ensures r.Success? <==>
              && AnnotateTable(s.pms, PmDue, today).Success?
              && AnnotateTable(s.workOrders, TaskDue, today).Success?
              && AnnotateTable(s.operatorChecks, TaskDue, today).Success?
              && AnnotateTable(s.breakdowns, TaskDue, today).Success?
    ensures ListedDatesParse(s) ==> r.Success?
    ensures r.Success? ==>
              && r.value.pms == AnnotateTable(s.pms, PmDue, today).value
              && r.value.workOrders == AnnotateTable(s.workOrders, TaskDue, today).value
              && r.value.operatorChecks == AnnotateTable(s.operatorChecks, TaskDue, today).value
              && r.value.breakdowns == AnnotateTable(s.breakdowns, TaskDue, today).value
    ensures r.Success? ==>
              && Rows(r.value.pms) == s.pms
              && Rows(r.value.workOrders) == s.workOrders
              && Rows(r.value.operatorChecks) == s.operatorChecks
              && Rows(r.value.breakdowns) == s.breakdowns
    ensures r.Failure? ==> r.error.keys != {}
    ensures r.Failure? && r.error.table == PmsTable ==>
              r.error.keys == MalformedKeys(s.pms, PmDue, today)
    ensures r.Failure? && r.error.table == WorkOrdersTable ==>
              && AnnotateTable(s.pms, PmDue, today).Success?
              && r.error.keys == MalformedKeys(s.workOrders, TaskDue, today)
    ensures r.Failure? && r.error.table == OperatorChecksTable ==>
              && AnnotateTable(s.pms, PmDue, today).Success?
              && AnnotateTable(s.workOrders, TaskDue, today).Success?
              && r.error.keys == MalformedKeys(s.operatorChecks, TaskDue, today)
    ensures r.Failure? && r.error.table == BreakdownsTable ==>
              && AnnotateTable(s.pms, PmDue, today).Success?
              && AnnotateTable(s.workOrders, TaskDue, today).Success?
              && AnnotateTable(s.operatorChecks, TaskDue, today).Success?
              && r.error.keys == MalformedKeys(s.breakdowns, TaskDue, today)
  {
    ListedDatesListCleanly(s, today);
    match AnnotateTable(s.pms, PmDue, today)
    case Failure(bad) => Failure(ListingError(PmsTable, bad))
    case Success(pms) =>
      match AnnotateTable(s.workOrders, TaskDue, today)
      case Failure(bad) => Failure(ListingError(WorkOrdersTable, bad))
      case Success(workOrders) =>
        match AnnotateTable(s.operatorChecks, TaskDue, today)
        case Failure(bad) => Failure(ListingError(OperatorChecksTable, bad))
        case Success(operatorChecks) =>
          match AnnotateTable(s.breakdowns, TaskDue, today)
          case Failure(bad) => Failure(ListingError(BreakdownsTable, bad))
          case Success(breakdowns) =>
            AnnotateKeepsRows(s.pms, PmDue, today);
            AnnotateKeepsRows(s.workOrders, TaskDue, today);
            AnnotateKeepsRows(s.operatorChecks, TaskDue, today);
            AnnotateKeepsRows(s.breakdowns, TaskDue, today);
            Success(Overview(pms, workOrders, operatorChecks, breakdowns))
  }

  /** When every listed due date parses, none of the four listings raises; the Assets' dates play no part. */
  lemma ListedDatesListCleanly(s: Store, today: Date)
    ensures ListedDatesParse(s) ==>
              && AnnotateTable(s.pms, PmDue, today).Success?
              && AnnotateTable(s.workOrders, TaskDue, today).Success?
              && AnnotateTable(s.operatorChecks, TaskDue, today).Success?
              && AnnotateTable(s.breakdowns, TaskDue, today).Success?
  {
  }

  /**
   * A PM added on `today`, listed on day `later`: Due Today on the day it was
   * added, Overdue on every later day, and Upcoming only if the clock goes back.
   */
  lemma NewPmStatus(s: Store, idText: string, assetId: int, description: string, frequency: Frequency, today: Date, later: Date)
    requires ValidDate(today) && ValidDate(later)
    ensures var (s', outcome) := AddPm(s, idText, assetId, description, frequency, today);
            outcome.Submitted? && outcome.result.Inserted? ==>
            var st := ColorStatus(s'.pms[outcome.result.key].dueDate, later);
            && st.Success?
            && (st.value == DueToday <==> later == today)
            && (st.value == Overdue <==> Before(today, later))
            && (st.value == Upcoming <==> Before(later, today))
  {
  }

  /** A PM whose stored due date carries a time of day makes the PMs page raise, so no PM can be added. */
  lemma TimestampBlocksPmForm()
    ensures var s := Store(map[], map[1 := Pm(1, "x", "1hr", Some("2024-01-05 14:30"))], map[], map[], map[]);
            AddPm(s, "2", 1, "y", SevenDays, Date(2024, 1, 5)) == (s, ListingRaised({1}))
  {
    var s := Store(map[], map[1 := Pm(1, "x", "1hr", Some("2024-01-05 14:30"))], map[], map[], map[]);
    assert ColorStatus(s.pms[1].dueDate, Date(2024, 1, 5)).Failure?;
    assert MalformedKeys(s.pms, PmDue, Date(2024, 1, 5)) == {1};
  }

  /** The frequency chosen on the PM form changes nothing but the stored frequency label. */
  lemma FrequencyIgnored(s: Store, idText: string, assetId: int, description: string, f1: Frequency, f2: Frequency, today: Date)
    requires ValidDate(today)
    ensures var (s1, o1) := AddPm(s, idText, assetId, description, f1, today);
            var (s2, o2) := AddPm(s, idText, assetId, description, f2, today);
            && o1 == o2
            && s1.pms.Keys == s2.pms.Keys
            && (forall k :: k in s1.pms ==> s1.pms[k].dueDate == s2.pms[k].dueDate)
            && (forall k :: k in s1.pms ==> s2.pms[k] == s1.pms[k].(frequency := s2.pms[k].frequency))
  {
  }

  /**
   * The Asset ID choices on the item forms are `str(asset_id)` of every stored
   * asset; `int(...)` of a choice is that asset's key again.
   */
  lemma AssetChoiceRoundTrip(s: Store, k: int)
    requires WellFormed(s) && k in s.assets
    ensures IsDigitText(Decimal(k)) && ParseId(Decimal(k)) == Some(k)
  {
    DecimalRoundTrip(k);
  }
}

=== FILE: wrappers.dfy ===
/** Option and Result types shared by the other modules. */
module Wrappers {

  /** A value that may be missing: a SQL NULL cell, a rejected parse. */
  datatype Option<+T> = None | Some(value: T)

  /** The outcome of an operation that can raise an exception in Python. */
  datatype Result<+R, +E> = Success(value: R) | Failure(error: E)
}
